=== FILE: README.md ===
# SnowRunner save migration, modelled in Dafny

This project models `main.go` of the SnowRunner save migration tool. The
tool turns Xbox/Game Pass saves into Steam saves. It has three parts:

- **Container decoder** (`readContainer`). The container file is an 8-byte
  header followed by 160-byte records. Each record holds a 128-byte UTF-16LE
  file name that ends at the first zero unit or at the end of the field.
  After the name comes a 16-byte struct: a little-endian u32, two little-endian u16s and a big-endian u64.
  The result is a list of `Record`s. Decoding fails when the size after the
  header is not a multiple of 160.
- **Key deriver** (`createHashCode`). A record's source file is named by
  `%08X%04X%04X%016X` applied to its four values.
- **Migration** (`migrate`). For each record in order, migrate opens the
  source file named by the key. It then creates the destination file named
  by the record's file name and copies the bytes. The first failure ends
  the run.

Modules, one per file:

| file | module | contents |
|---|---|---|
| results.dfy | `Results` | `Option` and `Result` |
| bytes.dfy | `Bytes` | byte and integer types; the reference little/big-endian codecs; the `binary.LittleEndian`/`binary.BigEndian` readers; their round trips |
| utf16.dfy | `Utf16` | `utf16.Decode`, following section 2.2 of RFC 2781, and its encoding partner |
| container.dfy | `Container` | the decoder as pure functions, and the layout lemmas |
| reader.dfy | `ContainerReader` | the decoder as loops shaped like the Go code, proved equal to the functions |
| codec.dfy | `ContainerCodec` | an encoder for records and containers, and the decode-after-encode round trips |
| keyderiver.dfy | `KeyDeriver` | `%0wX` formatting, the key, parsing it back |
| migration.dfy | `Migration` | migrate over an abstract file system. Each record becomes a step (its key, its file name), and the run works through the steps in order |

Three facts about the layout and the error path, as main.go fixes them:

- Record bytes 144..160 are read but never used. main.go:25 sets
  `filenameSize = recordSize - 2*structSize`, which is 160 − 2·16 = 128, so
  the struct sits at record bytes 128..144, right after the name
  (main.go:73).
- The key is 32 characters: 8 + 4 + 4 + 16 hexadecimal digits
  (main.go:92).
- A container whose last record is truncated fails the size check
  (main.go:45) before any record is read, so it yields an error and no
  records.

## Model

| member | source | states |
|---|---|---|
| Container.DecodeContainer | main.go:44-53 | decoding fails exactly when the length is not 8 + 160·N. A length below 8 also fails, because Go's truncated remainder of the negative size is non-zero. On success there are (len−8)/160 records, and record i is decoded from bytes [8+160i, 8+160i+160) |
| Container.GoRem | main.go:45 | Go's `%` on the possibly negative size. Its effect is fixed by DecodeContainer: a length below 8 fails like any length that is not 8 + 160·N |
| ContainerReader.ReadContainer | main.go:44-88 | the Go-shaped loop (size check, one 160-byte buffer per record, append) returns exactly what DecodeContainer defines |
| ContainerReader.ReadFilenameUnits | main.go:60-68 | the name loop (two bytes at a time, break at a zero unit) collects exactly FilenameUnits |
| ContainerReader.ReadRecord | main.go:59-85 | one pass of the record loop: the name is read from the units of bytes 0..128, value1..value3 are little-endian from bytes 128..132, 132..134 and 134..136, and value4 is big-endian from bytes 136..144 |
| Container.FilenameUnitsSpec | main.go:60-68 | at most 64 units are read. Each is the non-zero little-endian unit at byte 2k. The run ends at the field's end or at a zero unit |
| Container.FilenameUnits | main.go:60-68 | the units the name loop collects from a 128-byte field. FilenameUnitsSpec states what they are |
| Container.UnitsFrom | main.go:62-68 | the name loop from a given even offset. UnitsFromSpec states what it collects |
| Container.UnitsFromSpec | main.go:62-68 | the same facts for the loop started at any even offset |
| Container.FilenameIgnoresBytesAfterTerminator | main.go:62-66 | bytes after the first zero unit never change the file name |
| Container.FilenameEndsWithCfg | main.go:69-70 | every decoded file name ends in ".cfg", with at most one character per unit before it |
| Container.FilenameOfPlainUnits | main.go:69-70 | units with no surrogate give a name with one character per unit, equal to that unit, followed by ".cfg". For example, the units of "save1" give "save1.cfg" |
| Container.FilenameOf | main.go:69-70 | `string(utf16.Decode(units)) + ".cfg"`. FilenameEndsWithCfg and FilenameOfPlainUnits state its shape |
| Container.DecodeRecordFields | main.go:73-77 | value1, value2 and value3 are the little-endian values of record bytes 128..132, 132..134 and 134..136. value4 is the big-endian value of bytes 136..144. The name comes from bytes 0..128 |
| Container.DecodeRecord | main.go:59-85 | one record from its 160 bytes. DecodeRecordFields states where each field comes from |
| Container.DecodeRecordIgnoresUnusedBytes | main.go:73 | a record depends only on its first 144 bytes |
| Container.IgnoredBytesDoNotMatter | main.go:22-25 | containers of the same length that agree on the first 144 bytes of every whole record decode identically. The header, record bytes 144..160 and trailing bytes play no part |
| Bytes.Uint32LEIsLittleEndian | main.go:74 | `binary.LittleEndian.Uint32` equals the reference little-endian value of its four bytes |
| Bytes.Uint16LE | main.go:63 | `binary.LittleEndian.Uint16`. Uint16LEIsLittleEndian proves it equals FromLE of its two bytes |
| Bytes.Uint32LE | main.go:74 | `binary.LittleEndian.Uint32`. Uint32LEIsLittleEndian proves it equals FromLE |
| Bytes.Uint64BE | main.go:77 | `binary.BigEndian.Uint64`. Uint64BEIsBigEndian proves it equals FromBE |
| Bytes.Uint64BEIsBigEndian | main.go:77 | `binary.BigEndian.Uint64` equals the reference big-endian value of its eight bytes |
| Bytes.LittleEndianRoundTrip | main.go:74-76 | decoding the n-byte little-endian encoding of a value below 256^n gives the value back |
| Bytes.LittleEndianCanonical | main.go:74-76 | re-encoding a decoded little-endian value gives the same bytes |
| Bytes.BigEndianRoundTrip | main.go:77 | decoding the n-byte big-endian encoding of a value below 256^n gives the value back |
| Bytes.BigEndianCanonical | main.go:77 | re-encoding a decoded big-endian value gives the same bytes |
| Utf16.Decode | main.go:70 | `utf16.Decode` outputs only scalar values, never a surrogate. The output has at most one code point per unit and at least one per two units |
| Utf16.DecodeEncode | main.go:70 | decoding the UTF-16 encoding of scalar values returns them unchanged. In particular, valid surrogate pairs are joined |
| Utf16.EncodeDecode | main.go:70 | re-encoding the decoded units reproduces them exactly when every surrogate is part of a high-low pair |
| Utf16.DecodeAfterEncode | main.go:70 | decoding reads the encoding of scalar values back off the front of any unit sequence; nothing that follows joins with it |
| Utf16.UnpairedSurrogateDecodes | main.go:70 | a surrogate that is not a high surrogate followed by a low one decodes to one U+FFFD, and decoding resumes at the very next unit |
| Utf16.LoneSurrogateThenText | main.go:70 | a lone surrogate followed by an encoded text decodes to U+FFFD followed by that text, unchanged |
| Utf16.LoneSurrogateBecomesReplacement | main.go:70 | a surrogate between two encoded texts that is not part of a high-low pair decodes to exactly one U+FFFD |
| Utf16.DecodeRune | main.go:70 | a valid high-low pair decodes to a supplementary code point, between U+10000 and U+10FFFF |
| Utf16.DecodeWithoutSurrogates | main.go:70 | units that contain no surrogate decode one code point per unit, unchanged |
| Utf16.ToText | main.go:70 | the Go string of the decoded runes has exactly those code points as its characters |
| ContainerCodec.NameFieldRoundTrip | main.go:59-68 | a name of at most 64 non-zero units, written little-endian and zero-padded to 128 bytes, reads back as the same units |
| ContainerCodec.RecordRoundTrip | main.go:59-85 | encoding a name and four values at the layout's offsets, then decoding, gives the same record, whatever the unused bytes hold |
| ContainerCodec.ContainerRoundTrip | main.go:44-88 | a header followed by N encoded records decodes to N records, in order, each equal to its entry |
| KeyDeriver.FormatHexFixedWidth | main.go:92 | for a value below 16^w, `%0wX` is exactly w uppercase hex digits that denote the value |
| KeyDeriver.FormatHex | main.go:92 | `%0wX`. FormatHexFixedWidth states its width, alphabet and value |
| KeyDeriver.HexDigits | main.go:92 | `%X`. HexDigitsValue states its alphabet and value |
| KeyDeriver.HexDigitsValue | main.go:92 | `%X` prints at least one uppercase hex digit, and the digits denote the value |
| KeyDeriver.HashCodeLayout | main.go:91-93 | the key is 32 characters from 0-9A-F. value1 sits zero-padded at 0..8, value2 at 8..12, value3 at 12..16 and value4 at 16..32 |
| KeyDeriver.HashCode | main.go:91-93 | createHashCode. HashCodeLayout, ParseHashCodeRoundTrip and HashCodeInjective state its properties |
| KeyDeriver.ParseHashCode | main.go:91-93 | a string parses as a key exactly when it has 32 characters, all uppercase hex |
| KeyDeriver.ParseHashCodeRoundTrip | main.go:91-93 | parsing a record's key gives back its four values |
| KeyDeriver.HashCodeInjective | main.go:91-93 | two records share a key exactly when their four values agree |
| KeyDeriver.HashCodeIsNeverAFilename | main.go:91-93 | no key equals a name ending in ".cfg", so source and destination names never collide |
| Migration.DecodedPlanNamesDisjoint | main.go:69-70 | in the plan of a decoded container, no source name equals any destination name. Every key is 32 hex digits and every file name ends in ".cfg" |
| Migration.PlanSourcesDistinct | main.go:97-98 | two records read the same source file exactly when their four values agree |
| Migration.TransferStep | main.go:101-117 | one step goes through exactly when its source exists, its destination can be created and its copy does not fail |
| Migration.Run | main.go:95-120 | the run copies a prefix of the steps and fails exactly when it stops early. The step it stops at cannot be transferred, and every earlier step could be |
| Migration.MigrateSucceedsIff | main.go:95-120 | migrate on a list of records succeeds exactly when every record's step is transferable |
| Migration.Migrate | main.go:95-120 | migrate as the run of the records' plan. MigrateSucceedsIff and MigrateRecords state its outcome |
| Migration.RunSteps | main.go:96-118 | the Go-shaped loop over the steps, with its early return on error, produces exactly Run |
| Migration.MigrateRecords | main.go:95-120 | migrate on records fails exactly when some record cannot be transferred, and then stops at one that cannot. On success all records are copied and the directory is as copying each record in order would leave it |
| Migration.RunSplit | main.go:96 | steps are handled in order. If the first k steps are transferable, the whole run is the run over those k followed by the run over the rest, from the directory they left |
| Migration.StopsAtFirstFailure | main.go:101-117 | if steps 0..k−1 go through and step k does not, exactly k are copied. The error and the final directory are those of step k's failed transfer. Steps after k are never looked at |
| Migration.MissingSourceLeavesDestination | main.go:101-109 | a missing source for step k fails the run with the open error, and the destination directory stays as the first k steps left it. Step k's destination is neither created nor truncated |
| Migration.WritesOnlyDestNames | main.go:99-107 | with names compared exactly, a name that is no step's destination keeps its presence and contents, whether the run succeeds or fails |
| Migration.CopiesContents | main.go:107-117 | after a successful run, each step's destination holds exactly its source's bytes, unless a later step has exactly the same destination name |
| Migration.RunInstalls | main.go:95-120 | a successful run leaves the directory exactly as copying every step in order would |

## Left out

- `main` (main.go:122-143): flag parsing, the usage text, building the container path. It also discards migrate's error.
- Opening, seeking and statting the container (main.go:27-42). The decoder takes the container's bytes directly, so the open, seek and stat errors are not modelled.
- Short reads (main.go:54). Each record is taken as a complete 160-byte slice. A `file.Read` that returns fewer bytes without an error is not modelled.
- Read errors (main.go:55-57). The decoder is given the container's bytes, so every record read is complete. An I/O error during a read, on which Go returns no records, is not modelled.
- `defer Close` (main.go:31, 105, 111). The handles opened in migrate's loop are released only when migrate returns. A run over more records than the open-file limit allows therefore fails part-way with an open or create error. The model's file-system answers depend only on names and do not count open handles.
- `filepath.Join` (main.go:98-99). The source and destination directories are separate maps keyed by plain names. Path normalisation is not modelled, and neither are file names that contain separators or "..".
- When two names are the same file. Names are compared exactly. On a case-insensitive or normalising file system (NTFS under Win32, APFS by default), two different names can be one file. There, "same destination name" in CopiesContents and WritesOnlyDestNames means the same file, not the same string, and the model does not cover it.
- The `Printf` progress line (main.go:113).
- UTF-8 encoding of the file name (`string(...)` at main.go:70). Names are sequences of Unicode code points.
- What the operating system does is a parameter of the file system. It fixes which destination names `os.Create` refuses and after how many bytes `io.Copy` fails for a given source. Why those calls fail is not modelled, and a copy fault is keyed by source name only.
- The text of the wrapped Go error messages. Errors are three constructors that carry the source and destination names.

=== FILE: bytes.dfy ===
/** Fixed-width unsigned integers and the byte-order decoders the container
    format uses (Go's encoding/binary LittleEndian.Uint16/Uint32 and
    BigEndian.Uint64), together with reference definitions of little- and
    big-endian values of any length and the encoders that invert them. */
module Bytes {

  type byte = b: int | 0 <= b < 0x100
  type u16 = x: int | 0 <= x < 0x1_0000
  type u32 = x: int | 0 <= x < 0x1_0000_0000
  type u64 = x: int | 0 <= x < 0x1_0000_0000_0000_0000

  /** 256 to the power n: the number of values n bytes can hold. */
  function Pow256(n: nat): (r: nat)
    ensures r >= 1
  {
    if n == 0 then 1 else 256 * Pow256(n - 1)
  }

  lemma Pow256Widths()
    ensures Pow256(2) == 0x1_0000
    ensures Pow256(4) == 0x1_0000_0000
    ensures Pow256(8) == 0x1_0000_0000_0000_0000
  {
    assert Pow256(4) == 0x1_0000 * Pow256(2);
    assert Pow256(8) == 0x1_0000_0000 * Pow256(4);
  }

  /** Reference: the unsigned value of s read least significant byte first. */
  function FromLE(s: seq<byte>): (v: nat)
    ensures v < Pow256(|s|)
  {
    if |s| == 0 then 0 else s[0] + 256 * FromLE(s[1..])
  }

  /** Reference: the unsigned value of s read most significant byte first. */
  function FromBE(s: seq<byte>): (v: nat)
    ensures v < Pow256(|s|)
  {
    if |s| == 0 then 0 else 256 * FromBE(s[..|s| - 1]) + s[|s| - 1]
  }

  /** The n bytes of v, least significant first. */
  function ToLE(v: nat, n: nat): (s: seq<byte>)
    requires v < Pow256(n)
    ensures |s| == n
  {
    if n == 0 then [] else [v % 256] + ToLE(v / 256, n - 1)
  }

  /** The n bytes of v, most significant first. */
  function ToBE(v: nat, n: nat): (s: seq<byte>)
    requires v < Pow256(n)
    ensures |s| == n
  {
    if n == 0 then [] else ToBE(v / 256, n - 1) + [v % 256]
  }

  lemma {:induction false} LittleEndianRoundTrip(v: nat, n: nat)
    requires v < Pow256(n)
    ensures FromLE(ToLE(v, n)) == v
  {
    if n > 0 {
      var s := ToLE(v, n);
      assert s[1..] == ToLE(v / 256, n - 1);
      LittleEndianRoundTrip(v / 256, n - 1);
    }
  }

  lemma {:induction false} LittleEndianCanonical(s: seq<byte>)
    ensures ToLE(FromLE(s), |s|) == s
  {
    if |s| > 0 {
      var v := FromLE(s);
      assert v % 256 == s[0] && v / 256 == FromLE(s[1..]);
      LittleEndianCanonical(s[1..]);
    }
  }

  lemma {:induction false} BigEndianRoundTrip(v: nat, n: nat)
    requires v < Pow256(n)
    ensures FromBE(ToBE(v, n)) == v
  {
    if n > 0 {
      var s := ToBE(v, n);
      assert s[..n - 1] == ToBE(v / 256, n - 1);
      BigEndianRoundTrip(v / 256, n - 1);
    }
  }

  lemma {:induction false} BigEndianCanonical(s: seq<byte>)
    ensures ToBE(FromBE(s), |s|) == s
  {
    if |s| > 0 {
      var v := FromBE(s);
      var init := s[..|s| - 1];
      assert v % 256 == s[|s| - 1] && v / 256 == FromBE(init);
      BigEndianCanonical(init);
      assert s == init + [s[|s| - 1]];
    }
  }

  /** binary.LittleEndian.Uint16: b[0] | b[1]<<8. The shifted bytes occupy
      disjoint bits, so the bitwise or is the sum written here. */
  function Uint16LE(b: seq<byte>): u16
    requires |b| >= 2
  {
    b[0] as int + b[1] as int * 0x100
  }

  /** binary.LittleEndian.Uint32: b[0] | b[1]<<8 | b[2]<<16 | b[3]<<24. */
  function Uint32LE(b: seq<byte>): u32
    requires |b| >= 4
  {
    b[0] as int + b[1] as int * 0x100 + b[2] as int * 0x1_0000 + b[3] as int * 0x100_0000
  }

  /** binary.BigEndian.Uint64: b[7] | b[6]<<8 | ... | b[0]<<56. */
  function Uint64BE(b: seq<byte>): u64
    requires |b| >= 8
  {
    b[0] as int * 0x100_0000_0000_0000 + b[1] as int * 0x1_0000_0000_0000
      + b[2] as int * 0x100_0000_0000 + b[3] as int * 0x1_0000_0000 + b[4] as int * 0x100_0000
      + b[5] as int * 0x1_0000 + b[6] as int * 0x100 + b[7] as int
  }

  /** Uint16LE reads the first two bytes least significant first. */
  lemma Uint16LEIsLittleEndian(b: seq<byte>)
    requires |b| >= 2
    ensures Uint16LE(b) == FromLE(b[..2])
  {
    var s := b[..2];
    assert s[2..] == [] && s[1..][1..] == s[2..];
    assert FromLE(s[1..]) == b[1];
  }

  /** Uint32LE reads the first four bytes least significant first. */
  lemma Uint32LEIsLittleEndian(b: seq<byte>)
    requires |b| >= 4
    ensures Uint32LE(b) == FromLE(b[..4])
  {
    var s := b[..4];
    assert s[4..] == [] && s[3..][1..] == s[4..] && s[2..][1..] == s[3..] && s[1..][1..] == s[2..];
    assert FromLE(s[3..]) == b[3];
    assert FromLE(s[2..]) == b[2] as int + 0x100 * b[3] as int;
    assert FromLE(s[1..]) == b[1] as int + 0x100 * b[2] as int + 0x1_0000 * b[3] as int;
  }

  /** Uint64BE reads the first eight bytes most significant first. */
  lemma Uint64BEIsBigEndian(b: seq<byte>)
    requires |b| >= 8
    ensures Uint64BE(b) == FromBE(b[..8])
  {
    var s := b[..8];
    assert s[..1][..0] == s[..0] && FromBE(s[..1]) == b[0];
    assert s[..2][..1] == s[..1];
    assert FromBE(s[..2]) == 0x100 * b[0] as int + b[1] as int;
    assert s[..3][..2] == s[..2];
    assert FromBE(s[..3]) == 0x1_0000 * b[0] as int + 0x100 * b[1] as int + b[2] as int;
    assert s[..4][..3] == s[..3];
    assert FromBE(s[..4]) == 0x100_0000 * b[0] as int + 0x1_0000 * b[1] as int + 0x100 * b[2] as int + b[3] as int;
    assert s[..5][..4] == s[..4];
    assert FromBE(s[..5]) == 0x1_0000_0000 * b[0] as int + 0x100_0000 * b[1] as int + 0x1_0000 * b[2] as int + 0x100 * b[3] as int + b[4] as int;
    assert s[..6][..5] == s[..5];
    assert FromBE(s[..6]) == 0x100_0000_0000 * b[0] as int + 0x1_0000_0000 * b[1] as int + 0x100_0000 * b[2] as int + 0x1_0000 * b[3] as int + 0x100 * b[4] as int + b[5] as int;
    assert s[..7][..6] == s[..6];
    assert FromBE(s[..7]) == 0x1_0000_0000_0000 * b[0] as int + 0x100_0000_0000 * b[1] as int + 0x1_0000_0000 * b[2] as int + 0x100_0000 * b[3] as int + 0x1_0000 * b[4] as int + 0x100 * b[5] as int + b[6] as int;
    assert s[..8][..7] == s[..7];
    assert FromBE(s[..8]) == 0x100_0000_0000_0000 * b[0] as int + 0x1_0000_0000_0000 * b[1] as int + 0x100_0000_0000 * b[2] as int + 0x1_0000_0000 * b[3] as int + 0x100_0000 * b[4] as int + 0x1_0000 * b[5] as int + 0x100 * b[6] as int + b[7] as int;
  }
}

=== FILE: codec.dfy ===
/** The inverse direction of the container decoder: laying out a name and
    four numbers as a 160-byte record, and records after an 8-byte header as
    a container, in exactly the layout main.go reads. Decoding such bytes
    gives back what was laid out. */
module ContainerCodec {
  import opened Bytes
  import opened Container

  /** What a record carries before decoding: the UTF-16 units of its name
      (at most 64, none of them zero) and the four struct values. */
  datatype Entry = Entry(nameUnits: seq<u16>, value1: u32, value2: u16, value3: u16, value4: u64)

  predicate ValidEntry(e: Entry) {
    && |e.nameUnits| <= FilenameSize / 2
    && forall k :: 0 <= k < |e.nameUnits| ==> e.nameUnits[k] != 0
  }

  /** The record a decoder should produce for an entry. */
  function EntryRecord(e: Entry): Record {
    Record(FilenameOf(e.nameUnits), e.value1, e.value2, e.value3, e.value4)
  }

  /** The 128-byte name field: each unit little-endian, then zero bytes. */
  function NameField(units: seq<u16>): (field: seq<byte>)
    requires |units| <= FilenameSize / 2
    ensures |field| == FilenameSize
  {
    seq(FilenameSize, i requires 0 <= i < FilenameSize =>
      if i / 2 < |units| then (if i % 2 == 0 then units[i / 2] % 256 else units[i / 2] / 256) else 0)
  }

  lemma {:induction false} UnitsFromNameField(units: seq<u16>, k: nat)
    requires |units| <= FilenameSize / 2 && k <= |units|
    requires forall m :: 0 <= m < |units| ==> units[m] != 0
    ensures UnitsFrom(NameField(units), 2 * k) == units[k..]
    decreases |units| - k
  {
    var field := NameField(units);
    if k < |units| {
      assert field[2 * k] == units[k] % 256 by {
        assert (2 * k) / 2 == k && (2 * k) % 2 == 0;
      }
      assert field[2 * k + 1] == units[k] / 256 by {
        assert (2 * k + 1) / 2 == k && (2 * k + 1) % 2 == 1;
      }
      assert UnitAt(field, 2 * k) == units[k];
      UnitsFromNameField(units, k + 1);
      assert units[k..] == [units[k]] + units[k + 1..];
    } else if 2 * k < FilenameSize {
      assert field[2 * k] == 0 && field[2 * k + 1] == 0 by {
        assert (2 * k) / 2 == k && (2 * k + 1) / 2 == k;
      }
      assert UnitAt(field, 2 * k) == 0;
    }
  }

  /** Reading the name field back gives the units that were written. */
  lemma NameFieldRoundTrip(units: seq<u16>)
    requires |units| <= FilenameSize / 2
    requires forall m :: 0 <= m < |units| ==> units[m] != 0
    ensures FilenameUnits(NameField(units)) == units
  {
    UnitsFromNameField(units, 0);
  }

  /** The 160 bytes of one record; `unused` fills bytes 144..160. */
  function EncodeRecord(e: Entry, unused: seq<byte>): (buffer: seq<byte>)
    requires ValidEntry(e) && |unused| == RecordSize - FilenameSize - StructSize
    ensures |buffer| == RecordSize
  {
    Pow256Widths();
    NameField(e.nameUnits) + ToLE(e.value1, 4) + ToLE(e.value2, 2) + ToLE(e.value3, 2)
      + ToBE(e.value4, 8) + unused
  }

  /** Decoding an encoded record gives the entry's record back, whatever the
      unused bytes hold. */
  lemma RecordRoundTrip(e: Entry, unused: seq<byte>)
    requires ValidEntry(e) && |unused| == RecordSize - FilenameSize - StructSize
    ensures DecodeRecord(EncodeRecord(e, unused)) == EntryRecord(e)
  {
    Pow256Widths();
    var b := EncodeRecord(e, unused);
    DecodeRecordFields(b);
    assert b[..FilenameSize] == NameField(e.nameUnits);
    assert b[128..132] == ToLE(e.value1, 4);
    assert b[132..134] == ToLE(e.value2, 2);
    assert b[134..136] == ToLE(e.value3, 2);
    assert b[136..144] == ToBE(e.value4, 8);
    NameFieldRoundTrip(e.nameUnits);
    LittleEndianRoundTrip(e.value1, 4);
    LittleEndianRoundTrip(e.value2, 2);
    LittleEndianRoundTrip(e.value3, 2);
    BigEndianRoundTrip(e.value4, 8);
  }

  function Concat(chunks: seq<seq<byte>>): seq<byte> {
    if |chunks| == 0 then [] else chunks[0] + Concat(chunks[1..])
  }

  /** Chunk i of a concatenation of 160-byte chunks sits at bytes
      [160i, 160(i+1)). */
  lemma {:induction false} ConcatRecords(chunks: seq<seq<byte>>)
    requires forall k :: 0 <= k < |chunks| ==> |chunks[k]| == RecordSize
    ensures |Concat(chunks)| == RecordSize * |chunks|
    ensures forall i :: 0 <= i < |chunks| ==>
      Concat(chunks)[RecordSize * i..RecordSize * i + RecordSize] == chunks[i]
  {
    if |chunks| > 0 {
      var rest := chunks[1..];
      ConcatRecords(rest);
      var all := Concat(chunks);
      assert all == chunks[0] + Concat(rest);
      forall i | 0 <= i < |chunks|
        ensures all[RecordSize * i..RecordSize * i + RecordSize] == chunks[i]
      {
        if i > 0 {
          assert rest[i - 1] == chunks[i];
          assert Concat(rest)[RecordSize * (i - 1)..RecordSize * (i - 1) + RecordSize] == chunks[i];
        }
      }
    }
  }

  /** A container: the 8-byte header, then each entry's record in order. */
  function EncodeContainer(header: seq<byte>, entries: seq<Entry>, unused: seq<seq<byte>>): (data: seq<byte>)
    requires |header| == HeaderSize && |unused| == |entries|
    requires forall k :: 0 <= k < |entries| ==> ValidEntry(entries[k])
    requires forall k :: 0 <= k < |unused| ==> |unused[k]| == RecordSize - FilenameSize - StructSize
  {
    header + Concat(seq(|entries|, k requires 0 <= k < |entries| => EncodeRecord(entries[k], unused[k])))
  }

  /** Record i of an encoded container decodes to entry i. */
  lemma ContainerRoundTripAt(header: seq<byte>, entries: seq<Entry>, unused: seq<seq<byte>>, i: nat)
    requires |header| == HeaderSize && |unused| == |entries|
    requires forall k :: 0 <= k < |entries| ==> ValidEntry(entries[k])
    requires forall k :: 0 <= k < |unused| ==> |unused[k]| == RecordSize - FilenameSize - StructSize
    requires i < |entries|
    ensures |EncodeContainer(header, entries, unused)| == HeaderSize + RecordSize * |entries|
    ensures RecordAt(EncodeContainer(header, entries, unused), i) == EntryRecord(entries[i])
  {
    var chunks := seq(|entries|, k requires 0 <= k < |entries| => EncodeRecord(entries[k], unused[k]));
    ConcatRecords(chunks);
    var data := EncodeContainer(header, entries, unused);
    assert RecordBytes(data, i) == Concat(chunks)[RecordSize * i..RecordSize * i + RecordSize] == chunks[i];
    RecordRoundTrip(entries[i], unused[i]);
  }

  /** Decoding an encoded container succeeds and gives one record per entry,
      in order, each carrying the entry's name and values. */
  lemma ContainerRoundTrip(header: seq<byte>, entries: seq<Entry>, unused: seq<seq<byte>>)
    requires |header| == HeaderSize && |unused| == |entries|
    requires forall k :: 0 <= k < |entries| ==> ValidEntry(entries[k])
    requires forall k :: 0 <= k < |unused| ==> |unused[k]| == RecordSize - FilenameSize - StructSize
    ensures DecodeContainer(EncodeContainer(header, entries, unused)).Success?
    ensures DecodeContainer(EncodeContainer(header, entries, unused)).value
      == seq(|entries|, k requires 0 <= k < |entries| => EntryRecord(entries[k]))
  {
    var data := EncodeContainer(header, entries, unused);
    var n := |entries|;
    if n == 0 {
      assert |data| == HeaderSize by {
        assert Concat([]) == [];
      }
    } else {
      ContainerRoundTripAt(header, entries, unused, 0);
    }
    assert |data| - HeaderSize == RecordSize * n;
    assert (RecordSize * n) % RecordSize == 0;
    var r := DecodeContainer(data);
    assert |r.value| == n;
    forall i | 0 <= i < n
      ensures r.value[i] == EntryRecord(entries[i])
    {
      ContainerRoundTripAt(header, entries, unused, i);
    }
  }
}

=== FILE: container.dfy ===
/** The container decoder (readContainer in main.go): an 8-byte header that
    is skipped, then a whole number of 160-byte records. Each record holds a
    128-byte UTF-16LE file name, which ends at the first zero unit or at
    the end of the field, and a 16-byte struct of four numbers (LE u32,
    LE u16, LE u16, BE u64) at record bytes 128..144;
    record bytes 144..160 are read but never used. The container is given
    as its bytes; the decoder is a pure function of them. */
module Container {
  import opened Results
  import opened Bytes
  import Utf16

  const HeaderSize := 8
  const RecordSize := 160
  const StructSize := 16
  /** As main.go computes it: one record minus two structs, so 128. */
  const FilenameSize := RecordSize - 2 * StructSize
  /** Saves get the ".cfg" extension. */
  const Suffix := ".cfg"

  datatype Record = Record(filename: string, value1: u32, value2: u16, value3: u16, value4: u64)

  /** The one way decoding fails once the bytes are in hand:
      "file size is not a multiple of record size". */
  datatype ContainerError = SizeNotMultiple

  /** Go's % on integers: truncated division, so the remainder takes the
      sign of the dividend (-8 % 160 is -8, not 152). */
  function GoRem(a: int, b: int): (r: int)
    requires b > 0
  {
    if a >= 0 then a % b else -((-a) % b)
  }

  /** The 16-bit little-endian unit at byte offset j of a name field. */
  function UnitAt(field: seq<byte>, j: nat): u16
    requires j + 2 <= |field|
  {
    Uint16LE(field[j..j + 2])
  }

  /** The units the filename loop of main.go collects from byte offset j on:
      one unit per two bytes, stopping before the first zero unit or at the
      end of the field. */
  function UnitsFrom(field: seq<byte>, j: nat): seq<u16>
    requires |field| % 2 == 0 && j % 2 == 0 && j <= |field|
    decreases |field| - j
  {
    if j == |field| then []
    else if UnitAt(field, j) == 0 then []
    else [UnitAt(field, j)] + UnitsFrom(field, j + 2)
  }

  /** The units of a 128-byte name field. */
  function FilenameUnits(field: seq<byte>): seq<u16>
    requires |field| == FilenameSize
  {
    UnitsFrom(field, 0)
  }

  /** The units collected from offset j on are the longest run of non-zero
      units there: each is the unit at its offset, none is zero, and the
      run ends at the end of the field or at a zero unit. */
  lemma {:induction false} UnitsFromSpec(field: seq<byte>, j: nat)
    requires |field| % 2 == 0 && j % 2 == 0 && j <= |field|
    ensures 2 * |UnitsFrom(field, j)| <= |field| - j
    ensures forall k :: 0 <= k < |UnitsFrom(field, j)| ==>
      UnitsFrom(field, j)[k] != 0 && UnitsFrom(field, j)[k] == UnitAt(field, j + 2 * k)
    ensures j + 2 * |UnitsFrom(field, j)| < |field| ==> UnitAt(field, j + 2 * |UnitsFrom(field, j)|) == 0
    decreases |field| - j
  {
    if j < |field| && UnitAt(field, j) != 0 {
      UnitsFromSpec(field, j + 2);
      var rest := UnitsFrom(field, j + 2);
      forall k | 1 <= k < |UnitsFrom(field, j)|
        ensures UnitsFrom(field, j)[k] == UnitAt(field, j + 2 * k)
      {
        assert UnitsFrom(field, j)[k] == rest[k - 1];
        assert j + 2 + 2 * (k - 1) == j + 2 * k;
      }
    }
  }

  /** Filename extraction reads at most 64 units and stops before the first
      zero unit: the result is exactly the non-zero units that precede it. */
  lemma FilenameUnitsSpec(field: seq<byte>)
    requires |field| == FilenameSize
    ensures |FilenameUnits(field)| <= FilenameSize / 2
    ensures forall k :: 0 <= k < |FilenameUnits(field)| ==>
      FilenameUnits(field)[k] != 0 && FilenameUnits(field)[k] == UnitAt(field, 2 * k)
    ensures |FilenameUnits(field)| < FilenameSize / 2 ==> UnitAt(field, 2 * |FilenameUnits(field)|) == 0
  {
    UnitsFromSpec(field, 0);
  }

  /** The file name a unit sequence stands for: its UTF-16 decoding with the
      ".cfg" extension appended. */
  function FilenameOf(units: seq<u16>): string {
    Utf16.ToText(Utf16.Decode(units)) + Suffix
  }

  /** Every file name ends in ".cfg" and has at most one character per unit
      before it. */
  lemma FilenameEndsWithCfg(units: seq<u16>)
    ensures |FilenameOf(units)| >= |Suffix|
    ensures FilenameOf(units)[|FilenameOf(units)| - |Suffix|..] == Suffix
    ensures |FilenameOf(units)| <= |units| + |Suffix|
  {
    var text := Utf16.ToText(Utf16.Decode(units));
    assert (text + Suffix)[|text|..] == Suffix;
  }

  /** Units that hold no surrogate name the file character for character:
      the name is one character per unit, with that unit's value, then
      ".cfg". */
  lemma FilenameOfPlainUnits(units: seq<u16>)
    requires forall k :: 0 <= k < |units| ==> !Utf16.IsSurrogate(units[k])
    ensures |FilenameOf(units)| == |units| + |Suffix|
    ensures forall k :: 0 <= k < |units| ==> FilenameOf(units)[k] as int == units[k]
    ensures FilenameOf(units)[|units|..] == Suffix
  {
    Utf16.DecodeWithoutSurrogates(units);
    var text := Utf16.ToText(Utf16.Decode(units));
    assert (text + Suffix)[|text|..] == Suffix;
  }

  /** One 160-byte record. */
  function DecodeRecord(buffer: seq<byte>): Record
    requires |buffer| == RecordSize
  {
    var structBytes := buffer[FilenameSize..FilenameSize + StructSize];
    Record(
      FilenameOf(FilenameUnits(buffer[..FilenameSize])),
      Uint32LE(structBytes[0..4]),
      Uint16LE(structBytes[4..6]),
      Uint16LE(structBytes[6..8]),
      Uint64BE(structBytes[8..16]))
  }

  /** Where each field of a record comes from: the name from the units of
      bytes 0..128, value1..value3 little-endian from bytes 128..132,
      132..134 and 134..136, value4 big-endian from bytes 136..144. */
  lemma DecodeRecordFields(buffer: seq<byte>)
    requires |buffer| == RecordSize
    ensures DecodeRecord(buffer).filename == FilenameOf(FilenameUnits(buffer[..FilenameSize]))
    ensures DecodeRecord(buffer).value1 == FromLE(buffer[128..132])
    ensures DecodeRecord(buffer).value2 == FromLE(buffer[132..134])
    ensures DecodeRecord(buffer).value3 == FromLE(buffer[134..136])
    ensures DecodeRecord(buffer).value4 == FromBE(buffer[136..144])
  {
    var structBytes := buffer[FilenameSize..FilenameSize + StructSize];
    assert structBytes[0..4] == structBytes[0..4][..4] == buffer[128..132];
    assert structBytes[4..6] == structBytes[4..6][..2] == buffer[132..134];
    assert structBytes[6..8] == structBytes[6..8][..2] == buffer[134..136];
    assert structBytes[8..16] == structBytes[8..16][..8] == buffer[136..144];
    Uint32LEIsLittleEndian(structBytes[0..4]);
    Uint16LEIsLittleEndian(structBytes[4..6]);
    Uint16LEIsLittleEndian(structBytes[6..8]);
    Uint64BEIsBigEndian(structBytes[8..16]);
  }

  /** Offset of record i in the container. */
  function RecordStart(i: nat): nat {
    HeaderSize + RecordSize * i
  }

  /** The 160 bytes of record i: container bytes [8+160i, 8+160(i+1)). */
  function RecordBytes(data: seq<byte>, i: nat): (buffer: seq<byte>)
    requires RecordStart(i) + RecordSize <= |data|
    ensures |buffer| == RecordSize
  {
    data[RecordStart(i)..RecordStart(i) + RecordSize]
  }

  /** The i-th record of a container. */
  function RecordAt(data: seq<byte>, i: nat): Record
    requires RecordStart(i) + RecordSize <= |data|
  {
    DecodeRecord(RecordBytes(data, i))
  }

  /** readContainer on the container's bytes. */
  function DecodeContainer(data: seq<byte>): (r: Result<seq<Record>, ContainerError>)
    ensures r.Failure? <==> !(|data| >= HeaderSize && (|data| - HeaderSize) % RecordSize == 0)
    ensures r.Success? ==> |r.value| == (|data| - HeaderSize) / RecordSize
    ensures r.Success? ==> forall i :: 0 <= i < |r.value| ==> r.value[i] == RecordAt(data, i)
  {
    var fileSize := |data| - HeaderSize;
    if GoRem(fileSize, RecordSize) != 0 then Failure(SizeNotMultiple)
    else
      var recordCount := fileSize / RecordSize;
      Success(seq(recordCount, i requires 0 <= i < recordCount => RecordAt(data, i)))
  }

  /** Bytes after a zero unit never reach the file name: two name fields
      that agree up to and including a zero unit at byte offset t yield
      the same units from any even offset j <= t on. */
  lemma {:induction false} UnitsStopAtTerminator(f1: seq<byte>, f2: seq<byte>, j: nat, t: nat)
    requires |f1| == |f2| && |f1| % 2 == 0
    requires j % 2 == 0 && t % 2 == 0 && j <= t && t + 2 <= |f1|
    requires UnitAt(f1, t) == 0
    requires f1[..t + 2] == f2[..t + 2]
    ensures UnitsFrom(f1, j) == UnitsFrom(f2, j)
    decreases t - j
  {
    assert f1[j] == f1[..t + 2][j] == f2[..t + 2][j] == f2[j];
    assert f1[j + 1] == f1[..t + 2][j + 1] == f2[..t + 2][j + 1] == f2[j + 1];
    assert f1[j..j + 2] == f2[j..j + 2];
    if UnitAt(f1, j) != 0 {
      UnitsStopAtTerminator(f1, f2, j + 2, t);
    }
  }

  /** The file name stops at the first zero unit: what follows it in the
      128-byte field has no effect. */
  lemma FilenameIgnoresBytesAfterTerminator(f1: seq<byte>, f2: seq<byte>, k: nat)
    requires |f1| == |f2| == FilenameSize && k < FilenameSize / 2
    requires UnitAt(f1, 2 * k) == 0
    requires f1[..2 * k + 2] == f2[..2 * k + 2]
    ensures FilenameUnits(f1) == FilenameUnits(f2)
  {
    UnitsStopAtTerminator(f1, f2, 0, 2 * k);
  }

  /** A record is decoded from its first 144 bytes only. */
  lemma DecodeRecordIgnoresUnusedBytes(b1: seq<byte>, b2: seq<byte>)
    requires |b1| == |b2| == RecordSize
    requires b1[..FilenameSize + StructSize] == b2[..FilenameSize + StructSize]
    ensures DecodeRecord(b1) == DecodeRecord(b2)
  {
    var n := FilenameSize + StructSize;
    assert b1[..FilenameSize] == b1[..n][..FilenameSize] == b2[..n][..FilenameSize] == b2[..FilenameSize];
    assert b1[128..132] == b1[..n][128..132] == b2[..n][128..132] == b2[128..132];
    assert b1[132..134] == b1[..n][132..134] == b2[..n][132..134] == b2[132..134];
    assert b1[134..136] == b1[..n][134..136] == b2[..n][134..136] == b2[134..136];
    assert b1[136..144] == b1[..n][136..144] == b2[..n][136..144] == b2[136..144];
  }

  /** The bytes of record i that decoding reads: its first 144. */
  function UsedBytes(data: seq<byte>, i: nat): seq<byte>
    requires RecordStart(i) + RecordSize <= |data|
  {
    RecordBytes(data, i)[..FilenameSize + StructSize]
  }

  /** Two containers of the same length that differ at most in the header,
      in bytes 144..160 of each record and in bytes after the last whole
      record. */
  predicate DifferOnlyInIgnoredBytes(a: seq<byte>, b: seq<byte>) {
    && |a| == |b|
    && forall i :: 0 <= i < (|a| - HeaderSize) / RecordSize ==> UsedBytes(a, i) == UsedBytes(b, i)
  }

  /** Record i of two such containers is the same. */
  lemma IgnoredBytesDoNotMatterAt(a: seq<byte>, b: seq<byte>, i: nat)
    requires DifferOnlyInIgnoredBytes(a, b)
    requires RecordStart(i) + RecordSize <= |a|
    ensures RecordAt(a, i) == RecordAt(b, i)
  {
    assert UsedBytes(a, i) == UsedBytes(b, i);
    DecodeRecordIgnoresUnusedBytes(RecordBytes(a, i), RecordBytes(b, i));
  }

  /** The header and the unused tail of every record never affect the
      outcome of decoding. */
  lemma IgnoredBytesDoNotMatter(a: seq<byte>, b: seq<byte>)
    requires DifferOnlyInIgnoredBytes(a, b)
    ensures DecodeContainer(a) == DecodeContainer(b)
  {
    var ra, rb := DecodeContainer(a), DecodeContainer(b);
    if ra.Success? {
      forall i | 0 <= i < |ra.value|
        ensures ra.value[i] == rb.value[i]
      {
        IgnoredBytesDoNotMatterAt(a, b, i);
      }
      assert ra.value == rb.value;
    }
  }
}

=== FILE: keyderiver.dfy ===
/** The key deriver (createHashCode in main.go): the source file of a record
    is named by fmt.Sprintf("%08X%04X%04X%016X", value1, value2, value3,
    value4). Go's %0wX prints the uppercase hexadecimal digits of the value
    without leading zeros and pads them on the left with '0' to at least w
    characters; since every value fits its width, the key is always 32
    hexadecimal characters and parsing it back recovers the four values. */
module KeyDeriver {
  import opened Results
  import opened Bytes
  import opened Container

  /** The uppercase hexadecimal digit for d < 16. */
  function HexDigit(d: nat): (c: char)
    requires d < 16
  {
    if d < 10 then ('0' as int + d) as char else ('A' as int + d - 10) as char
  }

  predicate IsHexDigit(c: char) {
    '0' <= c <= '9' || 'A' <= c <= 'F'
  }

  predicate IsHexString(s: string) {
    forall k :: 0 <= k < |s| ==> IsHexDigit(s[k])
  }

  function Pow16(n: nat): (r: nat)
    ensures r >= 1
  {
    if n == 0 then 1 else 16 * Pow16(n - 1)
  }

  lemma Pow16Widths()
    ensures Pow16(4) == 0x1_0000
    ensures Pow16(8) == 0x1_0000_0000
    ensures Pow16(16) == 0x1_0000_0000_0000_0000
  {
    assert Pow16(2) == 0x100;
    assert Pow16(4) == 0x100 * Pow16(2) by {
      assert Pow16(4) == 16 * Pow16(3) && Pow16(3) == 16 * Pow16(2);
    }
    assert Pow16(8) == 0x1_0000 * Pow16(4) by {
      PowAdd(4, 4);
    }
    assert Pow16(16) == 0x1_0000_0000 * Pow16(8) by {
      PowAdd(8, 8);
    }
  }

  lemma {:induction false} PowAdd(m: nat, n: nat)
    ensures Pow16(m + n) == Pow16(m) * Pow16(n)
  {
    if m > 0 {
      PowAdd(m - 1, n);
      assert Pow16(m + n) == 16 * Pow16(m - 1 + n);
    }
  }

  /** The value of one uppercase hexadecimal digit. */
  function DigitValue(c: char): (d: nat)
    requires IsHexDigit(c)
    ensures d < 16 && HexDigit(d) == c
  {
    if '0' <= c <= '9' then c as int - '0' as int else c as int - 'A' as int + 10
  }

  /** %X: the uppercase hexadecimal digits of v, most significant first,
      without leading zeros ("0" for zero). */
  function HexDigits(v: nat): (s: string)
    decreases v
  {
    if v < 16 then [HexDigit(v)] else HexDigits(v / 16) + [HexDigit(v % 16)]
  }

  /** %0wX: the digits of v, left-padded with '0' to at least `width`
      characters. */
  function FormatHex(v: nat, width: nat): string {
    var digits := HexDigits(v);
    if |digits| >= width then digits else Zeros(width - |digits|) + digits
  }

  function Zeros(n: nat): (s: string)
    ensures |s| == n
  {
    seq(n, _ => '0')
  }

  /** Reference: the number a string of hexadecimal digits denotes. */
  function HexValue(s: string): (v: nat)
    requires IsHexString(s)
    ensures v < Pow16(|s|)
  {
    if |s| == 0 then 0 else 16 * HexValue(s[..|s| - 1]) + DigitValue(s[|s| - 1])
  }

  /** %X prints only hexadecimal digits, and they denote v. */
  lemma {:induction false} HexDigitsValue(v: nat)
    ensures IsHexString(HexDigits(v))
    ensures |HexDigits(v)| >= 1
    ensures HexValue(HexDigits(v)) == v
    decreases v
  {
    var s := HexDigits(v);
    if v >= 16 {
      HexDigitsValue(v / 16);
      assert s[..|s| - 1] == HexDigits(v / 16);
      assert DigitValue(s[|s| - 1]) == v % 16;
    } else {
      assert DigitValue(s[0]) == v;
    }
  }

  /** A value below 16^w needs at most w digits. */
  lemma {:induction false} HexDigitsFit(v: nat, width: nat)
    requires 1 <= width && v < Pow16(width)
    ensures |HexDigits(v)| <= width
    decreases v
  {
    if v >= 16 {
      HexDigitsFit(v / 16, width - 1);
    }
  }

  /** Leading zeros do not change the value of a digit string. */
  lemma {:induction false} ZerosValue(n: nat, s: string)
    requires IsHexString(s)
    ensures IsHexString(Zeros(n) + s)
    ensures HexValue(Zeros(n) + s) == HexValue(s)
    decreases |s|
  {
    var t := Zeros(n) + s;
    if |s| == 0 {
      ZerosValueEmpty(n);
      assert t == Zeros(n);
    } else {
      assert t[..|t| - 1] == Zeros(n) + s[..|s| - 1];
      ZerosValue(n, s[..|s| - 1]);
    }
  }

  lemma {:induction false} ZerosValueEmpty(n: nat)
    ensures IsHexString(Zeros(n))
    ensures HexValue(Zeros(n)) == 0
  {
    if n > 0 {
      assert Zeros(n)[..n - 1] == Zeros(n - 1);
      ZerosValueEmpty(n - 1);
    }
  }

  /** For a value below 16^w, %0wX is exactly w hexadecimal digits that
      denote the value. */
  lemma FormatHexFixedWidth(v: nat, width: nat)
    requires 1 <= width && v < Pow16(width)
    ensures |FormatHex(v, width)| == width
    ensures IsHexString(FormatHex(v, width))
    ensures HexValue(FormatHex(v, width)) == v
  {
    HexDigitsFit(v, width);
    HexDigitsValue(v);
    var digits := HexDigits(v);
    if |digits| < width {
      ZerosValue(width - |digits|, digits);
    }
  }

  /** createHashCode. */
  function HashCode(r: Record): string {
    FormatHex(r.value1, 8) + FormatHex(r.value2, 4) + FormatHex(r.value3, 4) + FormatHex(r.value4, 16)
  }

  /** Where the four parts of a 32-character key sit. */
  lemma KeyParts(a: string, b: string, c: string, d: string)
    requires |a| == 8 && |b| == 4 && |c| == 4 && |d| == 16
    ensures |a + b + c + d| == 32
    ensures (a + b + c + d)[0..8] == a && (a + b + c + d)[8..12] == b
    ensures (a + b + c + d)[12..16] == c && (a + b + c + d)[16..32] == d
  {
  }

  /** The key is 32 uppercase hexadecimal characters: value1 at 0..8,
      value2 at 8..12, value3 at 12..16 and value4 at 16..32. */
  lemma HashCodeLayout(r: Record)
    ensures |HashCode(r)| == 32
    ensures IsHexString(HashCode(r))
    ensures HashCode(r)[0..8] == FormatHex(r.value1, 8) && HexValue(HashCode(r)[0..8]) == r.value1
    ensures HashCode(r)[8..12] == FormatHex(r.value2, 4) && HexValue(HashCode(r)[8..12]) == r.value2
    ensures HashCode(r)[12..16] == FormatHex(r.value3, 4) && HexValue(HashCode(r)[12..16]) == r.value3
    ensures HashCode(r)[16..32] == FormatHex(r.value4, 16) && HexValue(HashCode(r)[16..32]) == r.value4
  {
    Pow16Widths();
    var a, b, c, d := FormatHex(r.value1, 8), FormatHex(r.value2, 4), FormatHex(r.value3, 4), FormatHex(r.value4, 16);
    FormatHexFixedWidth(r.value1, 8);
    FormatHexFixedWidth(r.value2, 4);
    FormatHexFixedWidth(r.value3, 4);
    FormatHexFixedWidth(r.value4, 16);
    KeyParts(a, b, c, d);
    var key := a + b + c + d;
    forall k | 0 <= k < 32
      ensures IsHexDigit(key[k])
    {
      if k < 8 {
        assert key[k] == a[k];
      } else if k < 12 {
        assert key[k] == b[k - 8];
      } else if k < 16 {
        assert key[k] == c[k - 12];
      } else {
        assert key[k] == d[k - 16];
      }
    }
  }

  /** The four values a key names, or None for a string that is not a key. */
  function ParseHashCode(key: string): (fields: Option<(u32, u16, u16, u64)>)
    ensures fields.Some? <==> |key| == 32 && IsHexString(key)
  {
    if |key| == 32 && IsHexString(key) then
      Pow16Widths();
      assert IsHexString(key[0..8]) && IsHexString(key[8..12]);
      assert IsHexString(key[12..16]) && IsHexString(key[16..32]);
      Some((HexValue(key[0..8]), HexValue(key[8..12]), HexValue(key[12..16]), HexValue(key[16..32])))
    else None
  }

  /** Parsing a key gives back the values it was made from. */
  lemma ParseHashCodeRoundTrip(r: Record)
    ensures ParseHashCode(HashCode(r)) == Some((r.value1, r.value2, r.value3, r.value4))
  {
    HashCodeLayout(r);
  }

  /** Two records share a key exactly when their four values agree, so
      records with distinct values name distinct source files. */
  lemma HashCodeInjective(r1: Record, r2: Record)
    ensures HashCode(r1) == HashCode(r2) <==>
      (r1.value1, r1.value2, r1.value3, r1.value4) == (r2.value1, r2.value2, r2.value3, r2.value4)
  {
    ParseHashCodeRoundTrip(r1);
    ParseHashCodeRoundTrip(r2);
  }

  /** A key contains no '.', so it is never a name ending in ".cfg": source
      and destination names cannot collide even in one directory. */
  lemma HashCodeIsNeverAFilename(r: Record, name: string)
    requires |name| >= |Suffix| && name[|name| - |Suffix|..] == Suffix
    ensures HashCode(r) != name
  {
    HashCodeLayout(r);
    assert name[|name| - |Suffix|] == '.';
  }
}

=== FILE: migration.dfy ===
/** The migration (migrate in main.go). For each record in order it opens the
    source file named by the record's key, creates (or truncates) the
    destination file named by the record's file name, and copies the bytes;
    the first failure ends the run, and files already written stay.

    The names come first: a record's step is the pair (key, file name) that
    main.go computes at the top of the loop body, and the run is defined on
    the plan of steps. Directories are maps from file name to contents. The
    operating system's answers are parameters: which destination names
    cannot be created, and which source files fail part-way through a copy. */
module Migration {
  import opened Results
  import opened Bytes
  import opened Container
  import opened KeyDeriver

  type FileStore = map<string, seq<byte>>

  /** What the file system will do: the source directory's files, the
      destination names os.Create refuses (the directory is missing, the
      name is invalid, permission is denied), and the source files whose
      io.Copy fails after the given number of bytes has been written. */
  datatype FileSystem = FileSystem(source: FileStore, uncreatable: set<string>, copyFaults: map<string, nat>)

  /** The three errors migrate wraps, each with the source and destination
      names involved. */
  datatype MigrateError =
    | SourceOpenFailed(sourceName: string, destName: string)
    | DestCreateFailed(sourceName: string, destName: string)
    | CopyFailed(sourceName: string, destName: string)

  /** The names one record is copied between: the key in the source
      directory and the file name in the destination directory. */
  datatype Step = Step(sourceName: string, destName: string)

  /** The outcome of one step: the destination directory afterwards, and
      the error if the step failed. */
  datatype Transfer = Copied(dest: FileStore) | Stopped(dest: FileStore, error: MigrateError)

  /** The outcome of a run: the destination directory afterwards, how many
      steps were copied, and the error that stopped the run, if any. */
  datatype Outcome = Outcome(dest: FileStore, copied: nat, error: Option<MigrateError>)

  /** hashCode, sourcePath and destPath of one record, with the directories
      left implicit. */
  function StepOf(r: Record): Step {
    Step(HashCode(r), r.filename)
  }

  /** The steps of a list of records, in order. */
  function PlanOf(records: seq<Record>): (plan: seq<Step>)
    ensures |plan| == |records|
  {
    seq(|records|, i requires 0 <= i < |records| => StepOf(records[i]))
  }

  /** In the plan of a successfully decoded container, no key is any step's
      destination name, so no copy reads a file another step writes even
      when both directories are the same. */
  lemma DecodedPlanNamesDisjoint(data: seq<byte>)
    requires DecodeContainer(data).Success?
    ensures forall i, j :: 0 <= i < |PlanOf(DecodeContainer(data).value)| && 0 <= j < |PlanOf(DecodeContainer(data).value)| ==>
      PlanOf(DecodeContainer(data).value)[i].sourceName != PlanOf(DecodeContainer(data).value)[j].destName
  {
    var records := DecodeContainer(data).value;
    var plan := PlanOf(records);
    forall i, j | 0 <= i < |plan| && 0 <= j < |plan|
      ensures plan[i].sourceName != plan[j].destName
    {
      var buffer := RecordBytes(data, j);
      FilenameEndsWithCfg(FilenameUnits(buffer[..FilenameSize]));
      HashCodeIsNeverAFilename(records[i], records[j].filename);
    }
  }

  /** Two records are read from the same source file exactly when their
      four values agree. */
  lemma PlanSourcesDistinct(records: seq<Record>, i: nat, j: nat)
    requires i < |records| && j < |records|
    ensures PlanOf(records)[i].sourceName == PlanOf(records)[j].sourceName <==>
      (records[i].value1, records[i].value2, records[i].value3, records[i].value4)
        == (records[j].value1, records[j].value2, records[j].value3, records[j].value4)
  {
    HashCodeInjective(records[i], records[j]);
  }

  /** A step whose source opens, whose destination can be created and whose
      copy runs to the end. */
  predicate Transferable(fs: FileSystem, s: Step) {
    s.sourceName in fs.source && s.destName !in fs.uncreatable && s.sourceName !in fs.copyFaults
  }

  /** The loop body of migrate for one step: open the source, then create
      the destination, then copy. A failed copy leaves the destination
      holding the bytes written before the fault. */
  function TransferStep(fs: FileSystem, dest: FileStore, s: Step): (t: Transfer)
    ensures t.Copied? <==> Transferable(fs, s)
  {
    if s.sourceName !in fs.source then
      Stopped(dest, SourceOpenFailed(s.sourceName, s.destName))
    else if s.destName in fs.uncreatable then
      Stopped(dest, DestCreateFailed(s.sourceName, s.destName))
    else
      var content := fs.source[s.sourceName];
      if s.sourceName in fs.copyFaults then
        var written := if fs.copyFaults[s.sourceName] < |content| then fs.copyFaults[s.sourceName] else |content|;
        Stopped(dest[s.destName := content[..written]], CopyFailed(s.sourceName, s.destName))
      else
        Copied(dest[s.destName := content])
  }

  /** One step touches only its destination name; that name ends up with
      the source's full contents on success and with a prefix of them after
      a failed copy; a missing source changes nothing. */
  lemma TransferStepEffect(fs: FileSystem, dest: FileStore, s: Step)
    ensures s.sourceName !in fs.source ==>
      TransferStep(fs, dest, s) == Stopped(dest, SourceOpenFailed(s.sourceName, s.destName))
    ensures forall name :: name != s.destName ==>
      (name in TransferStep(fs, dest, s).dest <==> name in dest)
    ensures forall name :: name in dest && name != s.destName ==>
      TransferStep(fs, dest, s).dest[name] == dest[name]
    ensures TransferStep(fs, dest, s).Copied? ==>
      TransferStep(fs, dest, s).dest == dest[s.destName := fs.source[s.sourceName]]
    ensures s.destName in TransferStep(fs, dest, s).dest ==>
      || (s.destName in dest && TransferStep(fs, dest, s).dest[s.destName] == dest[s.destName])
      || (s.sourceName in fs.source && TransferStep(fs, dest, s).dest[s.destName] <= fs.source[s.sourceName])
  {
  }

  /** The loop of migrate: transfer the steps in order, stopping at the
      first error. The run copies a prefix of the plan; it fails exactly
      when it stops short, at a step that cannot be transferred, and every
      step before that one could be. */
  function Run(plan: seq<Step>, fs: FileSystem, dest: FileStore): (m: Outcome)
    ensures m.copied <= |plan|
    ensures m.error.None? <==> m.copied == |plan|
    ensures m.error.Some? ==> !Transferable(fs, plan[m.copied])
    ensures forall k :: 0 <= k < m.copied ==> Transferable(fs, plan[k])
    decreases |plan|
  {
    if |plan| == 0 then Outcome(dest, 0, None)
    else
      match TransferStep(fs, dest, plan[0])
      case Stopped(d, e) => Outcome(d, 0, Some(e))
      case Copied(d) =>
        var rest := Run(plan[1..], fs, d);
        Outcome(rest.dest, rest.copied + 1, rest.error)
  }

  /** migrate: run the plan of the records. */
  function Migrate(records: seq<Record>, fs: FileSystem, dest: FileStore): Outcome {
    Run(PlanOf(records), fs, dest)
  }

  /** migrate succeeds exactly when every record's step is transferable. */
  lemma MigrateSucceedsIff(records: seq<Record>, fs: FileSystem, dest: FileStore)
    ensures Migrate(records, fs, dest).error.None? <==>
      forall k :: 0 <= k < |records| ==> Transferable(fs, StepOf(records[k]))
  {
    var plan := PlanOf(records);
    assert forall k :: 0 <= k < |records| ==> plan[k] == StepOf(records[k]);
  }

  /** The loop of migrate over the steps: each step goes through
      TransferStep against the directory the earlier ones left, and the
      first failure returns at once with its error. */
  method RunSteps(plan: seq<Step>, fs: FileSystem, dest0: FileStore)
    returns (dest: FileStore, copied: nat, error: Option<MigrateError>)
    ensures Outcome(dest, copied, error) == Run(plan, fs, dest0)
  {
    dest := dest0;
    var i := 0;
    while i < |plan|
      invariant 0 <= i <= |plan|
      invariant Run(plan, fs, dest0) ==
        var rest := Run(plan[i..], fs, dest);
        Outcome(rest.dest, rest.copied + i, rest.error)
    {
      assert plan[i..][0] == plan[i] && plan[i..][1..] == plan[i + 1..];
      var t := TransferStep(fs, dest, plan[i]);
      if t.Stopped? {
        return t.dest, i, Some(t.error);
      }
      dest := t.dest;
      i := i + 1;
    }
    return dest, i, None;
  }

  /** migrate on a list of records: derive each record's names, then run
      the steps. It fails exactly when some record's source is missing,
      its destination cannot be created or its copy faults; on success
      every record was copied, in order, from its key to its file name. */
  method MigrateRecords(records: seq<Record>, fs: FileSystem, dest0: FileStore)
    returns (dest: FileStore, copied: nat, error: Option<MigrateError>)
    ensures error.None? <==> forall k :: 0 <= k < |records| ==> Transferable(fs, StepOf(records[k]))
    ensures error.None? ==> copied == |records| && dest == Installed(PlanOf(records), fs, dest0)
    ensures error.Some? ==> copied < |records| && !Transferable(fs, StepOf(records[copied]))
    ensures Outcome(dest, copied, error) == Migrate(records, fs, dest0)
  {
    var plan := PlanOf(records);
    dest, copied, error := RunSteps(plan, fs, dest0);
    MigrateSucceedsIff(records, fs, dest0);
    if error.None? {
      RunInstalls(plan, fs, dest0);
    } else {
      assert plan[copied] == StepOf(records[copied]);
    }
  }

  /** The destination directory after copying every step, in order, from
      a source directory that holds all their keys. */
  function Installed(plan: seq<Step>, fs: FileSystem, dest: FileStore): FileStore
    requires forall k :: 0 <= k < |plan| ==> plan[k].sourceName in fs.source
    decreases |plan|
  {
    if |plan| == 0 then dest
    else Installed(plan[1..], fs, dest[plan[0].destName := fs.source[plan[0].sourceName]])
  }

  /** Steps are handled in order: when the first k steps are transferable,
      the run is the run over those k followed by the run over the rest
      from where they left off. */
  lemma {:induction false} RunSplit(plan: seq<Step>, fs: FileSystem, dest: FileStore, k: nat)
    requires k <= |plan|
    requires forall j :: 0 <= j < k ==> Transferable(fs, plan[j])
    ensures Run(plan[..k], fs, dest).error.None?
    ensures Run(plan, fs, dest) ==
      var rest := Run(plan[k..], fs, Run(plan[..k], fs, dest).dest);
      Outcome(rest.dest, rest.copied + k, rest.error)
    decreases k
  {
    if k > 0 {
      var t := TransferStep(fs, dest, plan[0]);
      assert t.Copied?;
      var tail := plan[1..];
      forall j | 0 <= j < k - 1
        ensures Transferable(fs, tail[j])
      {
        assert tail[j] == plan[j + 1];
      }
      RunSplit(tail, fs, t.dest, k - 1);
      assert plan[..k][0] == plan[0] && plan[..k][1..] == tail[..k - 1];
      assert tail[k - 1..] == plan[k..];
    }
  }

  /** Fail-fast: when steps 0..k-1 are transferable and step k is not, the
      run copies exactly k steps, and its error and final directory are
      those of step k's failed transfer from the state the first k left;
      steps after k are never looked at. */
  lemma StopsAtFirstFailure(plan: seq<Step>, fs: FileSystem, dest: FileStore, k: nat)
    requires k < |plan|
    requires forall j :: 0 <= j < k ==> Transferable(fs, plan[j])
    requires !Transferable(fs, plan[k])
    ensures Run(plan, fs, dest).copied == k
    ensures Run(plan, fs, dest).dest == TransferStep(fs, Run(plan[..k], fs, dest).dest, plan[k]).dest
    ensures Run(plan, fs, dest).error == Some(TransferStep(fs, Run(plan[..k], fs, dest).dest, plan[k]).error)
    ensures Run(plan, fs, dest) == Run(plan[..k + 1], fs, dest)
  {
    RunSplit(plan, fs, dest, k);
    assert plan[k..][0] == plan[k];
    var prefix := plan[..k + 1];
    assert prefix[..k] == plan[..k] && prefix[k..][0] == plan[k];
    RunSplit(prefix, fs, dest, k);
  }

  /** If step k's source file is missing and every earlier step went
      through, the run fails with SourceOpenFailed for step k, and the
      destination directory is exactly as the first k steps left it: step
      k's destination is neither created nor truncated. */
  lemma MissingSourceLeavesDestination(plan: seq<Step>, fs: FileSystem, dest: FileStore, k: nat)
    requires k < |plan|
    requires forall j :: 0 <= j < k ==> Transferable(fs, plan[j])
    requires plan[k].sourceName !in fs.source
    ensures Run(plan, fs, dest).error == Some(SourceOpenFailed(plan[k].sourceName, plan[k].destName))
    ensures Run(plan, fs, dest).dest == Run(plan[..k], fs, dest).dest
  {
    StopsAtFirstFailure(plan, fs, dest, k);
    TransferStepEffect(fs, Run(plan[..k], fs, dest).dest, plan[k]);
  }

  /** A run writes only the plan's destination names: every other name in
      the destination directory keeps its presence and contents, whether
      the run succeeds or not. */
  lemma {:induction false} WritesOnlyDestNames(plan: seq<Step>, fs: FileSystem, dest: FileStore, name: string)
    requires forall k :: 0 <= k < |plan| ==> plan[k].destName != name
    ensures name in Run(plan, fs, dest).dest <==> name in dest
    ensures name in dest ==> Run(plan, fs, dest).dest[name] == dest[name]
    decreases |plan|
  {
    if |plan| > 0 {
      var t := TransferStep(fs, dest, plan[0]);
      TransferStepEffect(fs, dest, plan[0]);
      if t.Copied? {
        WritesOnlyDestNames(plan[1..], fs, t.dest, name);
      }
    }
  }

  /** A successful run leaves each step's destination holding exactly the
      bytes of its source file, unless a later step has the same
      destination name, in which case the later step's content wins. */
  lemma {:induction false} CopiesContents(plan: seq<Step>, fs: FileSystem, dest: FileStore, k: nat)
    requires Run(plan, fs, dest).error.None?
    requires k < |plan|
    requires forall j :: k < j < |plan| ==> plan[j].destName != plan[k].destName
    ensures plan[k].sourceName in fs.source
    ensures plan[k].destName in Run(plan, fs, dest).dest
    ensures Run(plan, fs, dest).dest[plan[k].destName] == fs.source[plan[k].sourceName]
    decreases |plan|
  {
    var t := TransferStep(fs, dest, plan[0]);
    var rest := plan[1..];
    if k == 0 {
      forall j | 0 <= j < |rest|
        ensures rest[j].destName != plan[0].destName
      {
        assert rest[j] == plan[j + 1];
      }
      TransferStepEffect(fs, dest, plan[0]);
      WritesOnlyDestNames(rest, fs, t.dest, plan[0].destName);
    } else {
      forall j | k - 1 < j < |rest|
        ensures rest[j].destName != rest[k - 1].destName
      {
        assert rest[j] == plan[j + 1];
      }
      CopiesContents(rest, fs, t.dest, k - 1);
    }
  }

  /** A successful run leaves the destination directory as copying every
      step in order would. */
  lemma {:induction false} RunInstalls(plan: seq<Step>, fs: FileSystem, dest: FileStore)
    requires forall k :: 0 <= k < |plan| ==> Transferable(fs, plan[k])
    ensures Run(plan, fs, dest) == Outcome(Installed(plan, fs, dest), |plan|, None)
    decreases |plan|
  {
    if |plan| > 0 {
      var t := TransferStep(fs, dest, plan[0]);
      TransferStepEffect(fs, dest, plan[0]);
      RunInstalls(plan[1..], fs, t.dest);
    }
  }
}

=== FILE: reader.dfy ===
/** readContainer written the way main.go writes it: a size check, then one
    160-byte buffer per record, and inside each buffer a loop over the name
    field two bytes at a time that breaks at the first zero unit. Each
    method is proved to compute the decoder's functional definition. */
module ContainerReader {
  import opened Results
  import opened Bytes
  import opened Container

  /** The filename loop of readContainer (main.go lines 60-68). */
  method ReadFilenameUnits(filenameBytes: seq<byte>) returns (units: seq<u16>)
    requires |filenameBytes| == FilenameSize
    ensures units == FilenameUnits(filenameBytes)
  {
    units := [];
    var j := 0;
    while j < |filenameBytes|
      invariant 0 <= j <= |filenameBytes| && j % 2 == 0
      invariant units + UnitsFrom(filenameBytes, j) == FilenameUnits(filenameBytes)
      decreases |filenameBytes| - j
    {
      var u := Uint16LE(filenameBytes[j..j + 2]);
      if u == 0 {
        break;
      }
      units := units + [u];
      j := j + 2;
    }
  }

  /** The body of the record loop: the file name from the units of bytes
      0..128, then the four struct values, little-endian from bytes
      128..132, 132..134 and 134..136 and big-endian from bytes 136..144. */
  method ReadRecord(buffer: seq<byte>) returns (record: Record)
    requires |buffer| == RecordSize
    ensures record.filename == FilenameOf(FilenameUnits(buffer[..FilenameSize]))
    ensures record.value1 == FromLE(buffer[128..132])
    ensures record.value2 == FromLE(buffer[132..134])
    ensures record.value3 == FromLE(buffer[134..136])
    ensures record.value4 == FromBE(buffer[136..144])
    ensures record == DecodeRecord(buffer)
  {
    var filenameUTF16 := ReadFilenameUnits(buffer[..FilenameSize]);
    var filename := FilenameOf(filenameUTF16);
    var structBytes := buffer[FilenameSize..FilenameSize + StructSize];
    record := Record(filename,
      Uint32LE(structBytes[0..4]),
      Uint16LE(structBytes[4..6]),
      Uint16LE(structBytes[6..8]),
      Uint64BE(structBytes[8..16]));
    DecodeRecordFields(buffer);
  }

  /** readContainer: check the size, then read the records one by one. */
  method ReadContainer(data: seq<byte>) returns (r: Result<seq<Record>, ContainerError>)
    ensures r == DecodeContainer(data)
  {
    var fileSize := |data| - HeaderSize;
    if GoRem(fileSize, RecordSize) != 0 {
      return Failure(SizeNotMultiple);
    }
    var recordCount := fileSize / RecordSize;
    var records: seq<Record> := [];
    var position := HeaderSize;
    var i := 0;
    while i < recordCount
      invariant 0 <= i <= recordCount
      invariant position == RecordStart(i)
      invariant |records| == i
      invariant forall k :: 0 <= k < i ==> records[k] == RecordAt(data, k)
    {
      var buffer := data[position..position + RecordSize];
      var record := ReadRecord(buffer);
      assert record == RecordAt(data, i);
      records := records + [record];
      position := position + RecordSize;
      i := i + 1;
    }
    assert records == DecodeContainer(data).value;
    return Success(records);
  }
}

=== FILE: results.dfy ===
/** Failure-carrying return values: the model's stand-in for Go's
    `(value, error)` pairs and for "no value". */
module Results {

  datatype Option<+T> = None | Some(value: T)

  /** Either a value or the error that stopped the computation. */
  datatype Result<+T, +E> = Success(value: T) | Failure(error: E)
}

=== FILE: utf16.dfy ===
/** UTF-16 decoding as Go's unicode/utf16.Decode performs it (section 2.2
    of RFC 2781): a high surrogate followed by a low surrogate is joined
    into one supplementary code point, every other surrogate becomes
    U+FFFD, and every other unit is a code point of its own. Encoding
    (section 2.1 of RFC 2781) is the partner the round-trip lemmas use. */
module Utf16 {
  import opened Bytes

  const ReplacementChar := 0xFFFD
  const MaxRune := 0x10FFFF
  /** Start of the high surrogates, of the low surrogates, and end of both. */
  const Surr1 := 0xD800
  const Surr2 := 0xDC00
  const Surr3 := 0xE000
  /** First code point that needs a surrogate pair. */
  const SurrSelf := 0x1_0000

  /** A Unicode scalar value: a code point that is not a surrogate. */
  predicate IsScalar(c: int) {
    0 <= c < Surr1 || Surr3 <= c <= MaxRune
  }

  predicate IsSurrogate(u: int) {
    Surr1 <= u < Surr3
  }

  predicate IsHigh(u: int) {
    Surr1 <= u < Surr2
  }

  predicate IsLow(u: int) {
    Surr2 <= u < Surr3
  }

  /** utf16.DecodeRune on a valid pair: (r1-surr1)<<10 | (r2-surr2), plus
      surrSelf. The low ten bits come only from r2, so the or is a sum. */
  function DecodeRune(r1: u16, r2: u16): (c: nat)
    requires IsHigh(r1) && IsLow(r2)
    ensures SurrSelf <= c <= MaxRune
  {
    (r1 - Surr1) * 0x400 + (r2 - Surr2) + SurrSelf
  }

  /** utf16.Decode. */
  function Decode(units: seq<u16>): (cps: seq<nat>)
    ensures |cps| <= |units|
    ensures 2 * |cps| >= |units|
    ensures forall k :: 0 <= k < |cps| ==> IsScalar(cps[k])
  {
    if |units| == 0 then []
    else if !IsSurrogate(units[0]) then [units[0] as nat] + Decode(units[1..])
    else if IsHigh(units[0]) && |units| >= 2 && IsLow(units[1]) then
      [DecodeRune(units[0], units[1])] + Decode(units[2..])
    else [ReplacementChar] + Decode(units[1..])
  }

  /** The code units of one scalar value (utf16.EncodeRune for c >= 0x10000). */
  function EncodeRune(c: nat): (units: seq<u16>)
    requires IsScalar(c)
    ensures |units| == 1 ==> !IsSurrogate(units[0]) && units[0] == c
    ensures |units| == 2 ==> IsHigh(units[0]) && IsLow(units[1]) && DecodeRune(units[0], units[1]) == c
    ensures 1 <= |units| <= 2
  {
    if c < SurrSelf then [c]
    else
      var d := c - SurrSelf;
      [Surr1 + d / 0x400, Surr2 + d % 0x400]
  }

  function Encode(cps: seq<nat>): (units: seq<u16>)
    requires forall k :: 0 <= k < |cps| ==> IsScalar(cps[k])
  {
    if |cps| == 0 then [] else EncodeRune(cps[0]) + Encode(cps[1..])
  }

  /** A unit sequence in which every surrogate belongs to a high-low pair. */
  predicate WellFormed(units: seq<u16>)
    decreases |units|
  {
    if |units| == 0 then true
    else if !IsSurrogate(units[0]) then WellFormed(units[1..])
    else IsHigh(units[0]) && |units| >= 2 && IsLow(units[1]) && WellFormed(units[2..])
  }

  /** Decoding the encoding of scalar values gives them back. */
  lemma {:induction false} DecodeEncode(cps: seq<nat>)
    requires forall k :: 0 <= k < |cps| ==> IsScalar(cps[k])
    ensures Decode(Encode(cps)) == cps
  {
    if |cps| > 0 {
      var head := EncodeRune(cps[0]);
      var rest := Encode(cps[1..]);
      var units := head + rest;
      assert Encode(cps) == units;
      if |head| == 1 {
        assert units[1..] == rest;
      } else {
        assert units[2..] == rest;
      }
      DecodeEncode(cps[1..]);
      assert cps == [cps[0]] + cps[1..];
    }
  }

  /** Re-encoding the decoded text reproduces the units exactly when no
      surrogate in them was unpaired, that is, when Decode replaced nothing. */
  lemma {:induction false} EncodeDecode(units: seq<u16>)
    ensures Encode(Decode(units)) == units <==> WellFormed(units)
    decreases |units|
  {
    if |units| > 0 {
      var cps := Decode(units);
      assert Encode(cps) == EncodeRune(cps[0]) + Encode(cps[1..]);
      if !IsSurrogate(units[0]) {
        assert cps[1..] == Decode(units[1..]);
        EncodeDecode(units[1..]);
        assert units == [units[0]] + units[1..];
      } else if IsHigh(units[0]) && |units| >= 2 && IsLow(units[1]) {
        assert cps[1..] == Decode(units[2..]);
        EncodeDecode(units[2..]);
        assert units == [units[0], units[1]] + units[2..];
      } else {
        assert cps[0] == ReplacementChar;
        assert Encode(cps)[0] == ReplacementChar != units[0];
      }
    }
  }

  /** Decoding reads one encoded scalar value back off the front of any
      unit sequence. */
  lemma DecodeAfterEncodeRune(c: nat, tail: seq<u16>)
    requires IsScalar(c)
    ensures Decode(EncodeRune(c) + tail) == [c] + Decode(tail)
  {
    var head := EncodeRune(c);
    var units := head + tail;
    if |head| == 1 {
      assert units[0] == head[0] && units[1..] == tail;
    } else {
      assert units[0] == head[0] && units[1] == head[1] && units[2..] == tail;
    }
  }

  /** Decoding reads the encoding of scalar values back off the front of
      any unit sequence: whatever follows cannot join with it. */
  lemma {:induction false} DecodeAfterEncode(a: seq<nat>, rest: seq<u16>)
    requires forall k :: 0 <= k < |a| ==> IsScalar(a[k])
    ensures Decode(Encode(a) + rest) == a + Decode(rest)
  {
    if |a| > 0 {
      var tail := Encode(a[1..]) + rest;
      var units := Encode(a) + rest;
      assert Decode(units) == [a[0]] + Decode(tail) by {
        assert units == EncodeRune(a[0]) + tail;
        DecodeAfterEncodeRune(a[0], tail);
      }
      assert Decode(tail) == a[1..] + Decode(rest) by {
        DecodeAfterEncode(a[1..], rest);
      }
      assert a == [a[0]] + a[1..];
    } else {
      assert Encode(a) + rest == rest;
    }
  }

  /** An encoding never starts with a low surrogate. */
  lemma EncodeStartsWithoutLow(b: seq<nat>)
    requires forall k :: 0 <= k < |b| ==> IsScalar(b[k])
    requires |b| > 0
    ensures |Encode(b)| > 0 && !IsLow(Encode(b)[0])
  {
    assert Encode(b) == EncodeRune(b[0]) + Encode(b[1..]);
  }

  /** A surrogate not followed by its partner decodes to exactly one U+FFFD,
      and decoding carries on with the very next unit. */
  lemma UnpairedSurrogateDecodes(u: u16, rest: seq<u16>)
    requires IsSurrogate(u)
    requires !(IsHigh(u) && |rest| > 0 && IsLow(rest[0]))
    ensures Decode([u] + rest) == [0xFFFD] + Decode(rest)
  {
    assert ([u] + rest)[1..] == rest;
  }

  /** A lone surrogate before an encoded text becomes one U+FFFD, and the
      text after it decodes unchanged. */
  lemma {:induction false} LoneSurrogateThenText(u: u16, b: seq<nat>)
    requires forall k :: 0 <= k < |b| ==> IsScalar(b[k])
    requires IsSurrogate(u)
    ensures Decode([u] + Encode(b)) == [0xFFFD] + b
  {
    if |b| > 0 {
      EncodeStartsWithoutLow(b);
    }
    UnpairedSurrogateDecodes(u, Encode(b));
    DecodeEncode(b);
  }

  /** A surrogate that does not belong to a high-low pair decodes to
      U+FFFD and nothing else: between two encoded texts a lone surrogate
      is replaced by exactly one replacement character. */
  lemma LoneSurrogateBecomesReplacement(a: seq<nat>, u: u16, b: seq<nat>)
    requires forall k :: 0 <= k < |a| ==> IsScalar(a[k])
    requires forall k :: 0 <= k < |b| ==> IsScalar(b[k])
    requires IsSurrogate(u)
    ensures Decode(Encode(a) + [u] + Encode(b)) == a + [0xFFFD] + b
  {
    var tail := [u] + Encode(b);
    var units := Encode(a) + [u] + Encode(b);
    assert units == Encode(a) + tail;
    assert Decode(units) == a + Decode(tail) by {
      DecodeAfterEncode(a, tail);
    }
    assert Decode(tail) == [0xFFFD] + b by {
      LoneSurrogateThenText(u, b);
    }
    assert a + ([0xFFFD] + b) == a + [0xFFFD] + b;
  }

  /** Units that hold no surrogate decode one code point per unit. */
  lemma {:induction false} DecodeWithoutSurrogates(units: seq<u16>)
    requires forall k :: 0 <= k < |units| ==> !IsSurrogate(units[k])
    ensures Decode(units) == units
  {
    if |units| > 0 {
      DecodeWithoutSurrogates(units[1..]);
    }
  }

  /** Go's string(runes) for runes that are all scalar values: the text
      whose characters are exactly those code points. */
  function ToText(cps: seq<nat>): (s: string)
    requires forall k :: 0 <= k < |cps| ==> IsScalar(cps[k])
    ensures |s| == |cps|
    ensures forall k :: 0 <= k < |s| ==> s[k] as int == cps[k]
  {
    if |cps| == 0 then ""
    else
      assert IsScalar(cps[0]);
      [cps[0] as char] + ToText(cps[1..])
  }
}
